=== FILE: README.md ===
# Scrollytelling scene navigation, modelled in Dafny

`script.js` drives a page made of full-screen "scenes". Exactly one scene
should carry the `active` class, and every scene before it carries `above`.
The script closes over two variables, `current` (the scene index) and
`animating` (a transition is in flight).

The scene changes come from several places:

- `goToSection` moves to a scene, subject to three guards. It re-applies the
  classes and schedules a `setTimeout` that lowers `animating` again.
- `nextSection` and `prevSection` step with wrap-around.
- Five input adapters feed it: the wheel, the keyboard, the down-arrow
  buttons, the menu links (deferred by one microtask) and the URL fragment.

The model keeps JavaScript's number semantics where the script relies on
them:

- A parsed index may be NaN.
- Every comparison with NaN is false.
- `%` truncates toward zero, and `x % 0` is NaN.
- `parseInt(s, 10)` skips leading white space, takes an optional sign and
  reads the longest digit run.

Modules:

- `JsNumbers` (`js_numbers.dfy`): `JsInt = NaN | Int(value)` and the
  operations the script applies to it. This covers `<`, `>=`, `===`,
  truthiness, `+`, `-`, `%`, `String.prototype.trim` and `parseInt` with
  radix 10.
- `Scenes` (`scenes.dfy`): `applyPositions` as a pure function from the
  index to the class of every scene (`Inactive | Active | Above`).
- `Navigation` (`navigation.dfy`): the state `State(current, animating)`,
  `goToSection` and the reset delay. It also holds `nextSection`/`prevSection`
  and `TimerFires`, the reset as a transition of its own. A call returns the
  new state and the timer it leaves behind.
- `Inputs` (`inputs.dfy`): each event handler as a pure decision. It maps the
  event data to `Nothing | Next | Prev | Goto(index, immediate)` and says
  whether `preventDefault()` is called. It also holds the `idToIndex` table.
- `Controller` (`controller.dfy`): the whole page as an event-driven state
  holder.
  - The page holds the navigation state and the scene classes. It also keeps
    every reset scheduled and not yet fired, and every menu-link navigation
    waiting for its microtask.
  - Timers firing and microtasks running are events of their own, so they
    can be delivered in any order.
  - It proves the invariant of every page reachable from load.
  - It also shows how NaN can enter: only through a menu link whose
    `data-section` does not parse, or through a page with no scenes.
- `Properties` (`properties.dfy`): what each kind of event does to any page,
  and a concrete trace. In that trace a stale reset lowers `animating` while
  a later transition is still in flight.

## Model

| member | source | states |
|---|---|---|
| JsNumbers.Rem | script.js:38 | `%` yields NaN exactly when an operand is NaN or the divisor is 0; otherwise the result takes the dividend's sign and is below the divisor in magnitude (with `JsNumbers.RemCongruent` this fixes it as the truncating remainder) |
| JsNumbers.RemCongruent | script.js:38 | the dividend minus the remainder is a multiple of the divisor |
| JsNumbers.Add | script.js:38 | `+` on indices is NaN exactly when an operand is, and otherwise is the sum |
| JsNumbers.Sub | script.js:42 | `-` on indices is NaN exactly when an operand is, and otherwise is the difference |
| JsNumbers.TrimStart | script.js:26-28 | the trimmed string is a suffix of the input and starts with no white space; `JsNumbers.TrimStartCutsOnlySpace` adds that all it drops is white space |
| JsNumbers.TrimStartCutsOnlySpace | script.js:26-28 | every character before the suffix `TrimStart` keeps is white space |
| JsNumbers.TrimEnd | script.js:26-28 | the trimmed string is a prefix of the input, what was cut starts with white space, and the result ends with none; `JsNumbers.TrimEndCutsOnlySpace` adds that all it drops is white space |
| JsNumbers.TrimEndCutsOnlySpace | script.js:26-28 | every character after the prefix `TrimEnd` keeps is white space |
| JsNumbers.Trim | script.js:28 | no contract of its own: it is `TrimEnd` after `TrimStart`, whose contracts and `JsNumbers.TrimStartCutsOnlySpace`/`JsNumbers.TrimEndCutsOnlySpace` say it removes exactly the surrounding white space; `JsNumbers.ParseTrimmed` says it does not change what `parseInt` reads |
| JsNumbers.ParseInt | script.js:29 | no contract of its own (the same call reads `data-next` at line 52 and `data-section` at line 90); its behaviour is stated by `JsNumbers.ParseDecimal`, `JsNumbers.ParseDigitRun`, `JsNumbers.ParseNegatedDigitRun`, `JsNumbers.ParseSkipsSpace`, `JsNumbers.ParseNoDigits` and `JsNumbers.ParseTrimmed` |
| JsNumbers.ParseDecimal | script.js:29 | `parseInt` of any integer written in decimal, followed by a non-digit or nothing, gives back that integer |
| JsNumbers.ParseDigitRun | script.js:52 | `parseInt` of a digit run followed by a non-digit reads the digit run's value |
| JsNumbers.ParseNegatedDigitRun | script.js:90 | a leading `-` negates the digit run's value |
| JsNumbers.ParseNoDigits | script.js:52-53 | a string without any digit parses to NaN, which is what the down-arrow handler filters |
| JsNumbers.ParseSkipsSpace | script.js:29 | `parseInt` ignores leading white space |
| JsNumbers.ParseTrimmed | script.js:26-29 | `parseInt` of the trimmed custom property equals `parseInt` of the untrimmed one, so the `.trim()` call changes nothing |
| JsNumbers.NatDigits | script.js:29 | every natural number has a nonempty decimal spelling whose digit value is that number |
| Scenes.ApplyPositions | script.js:11-17 | the length is kept, and scene `i` is `Above` iff `i < current`, `Active` iff `current === i`, and `Inactive` otherwise, which includes every scene when the index is NaN |
| Scenes.ExactlyOneActive | script.js:11-17 | with the index among the scenes, exactly one scene is active |
| Scenes.NoneActiveAtNaN | script.js:14-15 | with a NaN index no scene is active |
| Scenes.ActiveCountSingle | script.js:15 | a sequence whose only `Active` entry is at `c` counts one active scene if `c` is a position of it and none otherwise |
| Scenes.ApplyPositionsIdempotent | script.js:11-17 | applying the positions twice equals applying them once, and the result does not depend on the classes the scenes had before |
| Navigation.GoToSection | script.js:19-35 | all five guard outcomes are covered. An integer index outside the scenes, a non-immediate call while animating, and a call for the current scene each leave the state alone with no timer. An accepted call sets the index, raises `animating` and schedules the reset. A NaN index passes the range check and is accepted |
| Navigation.TransitionMs | script.js:26-29 | the duration is the parsed integer when it is truthy and 480 when the parse is NaN or 0; it is never 0 |
| Navigation.DurationOfDecimal | script.js:29 | a decimal number followed by a unit such as `ms` gives that number, 0 gives 480, and a value without digits gives 480 |
| Navigation.ResetDelay | script.js:31-34 | the delay is 0 exactly when the call is immediate or reduced motion is preferred, and is the transition duration otherwise |
| Navigation.NextIndex | script.js:38 | the next index stays among the scenes and is NaN when there are no scenes or the index is NaN |
| Navigation.PrevIndex | script.js:42 | the previous index stays among the scenes and is NaN when there are no scenes or the index is NaN |
| Navigation.NextWraps | script.js:38 | stepping forward from the last scene gives 0, and from any other scene gives its successor |
| Navigation.PrevWraps | script.js:42 | stepping back from scene 0 gives the last scene, and from any other scene gives its predecessor |
| Navigation.PrevUndoesNext | script.js:37-44 | stepping back after forward, or forward after back, returns to the starting scene |
| Navigation.StepMoves | script.js:37-44 | with two or more scenes a step always changes scene; with one it stays put |
| Navigation.NextSection | script.js:37-40 | while animating nothing happens. With two or more scenes an idle page moves forward. With one scene nothing happens. With no scenes or a NaN index the index becomes NaN |
| Navigation.PrevSection | script.js:41-44 | the same outcomes for the backward step |
| Navigation.TimerFires | script.js:32-34 | the reset lowers `animating` and keeps the index |
| Inputs.WheelHandling | script.js:119-127 | over the text panel nothing happens and the scroll stays native. Otherwise the default is always prevented. `Next` is chosen iff idle and `deltaY > 10`, `Prev` iff idle and `deltaY < -10`, and nothing otherwise |
| Inputs.KeyHandling | script.js:103-116 | `Next` iff outside the panel with ArrowDown/PageDown, `Prev` iff outside with ArrowUp/PageUp; the default is prevented exactly then |
| Inputs.DownArrowCommand | script.js:50-57 | an unparsable `data-next` asks for nothing; otherwise a non-immediate jump to the parsed integer |
| Inputs.MenuLinkTarget | script.js:86-100 | a menu link always asks for a non-immediate jump to the parsed `data-section`, unfiltered, so its index is NaN exactly when `data-section` does not parse |
| Inputs.IdToIndex | script.js:130-138 | a lookup succeeds exactly for the table's own keys and gives an index below 4 |
| Inputs.IdToIndexExactly | script.js:130-135 | the table maps exactly `section-hero`, `section-sub1`, `section-sub2` and `section-sub3` to 0, 1, 2 and 3 |
| Inputs.RemoveFirst | script.js:137 | `replace('#', '')` leaves a string without `#` unchanged, removes exactly a leading `#`, and otherwise shortens the string by one |
| Inputs.HashCommand | script.js:136-141 | a fragment asks for an immediate jump to an index below 4 exactly when its identifier is in the table, and for nothing otherwise |
| Inputs.HashOfSection | script.js:136-141 | `#` followed by a section identifier asks for an immediate jump to that section; any other identifier asks for nothing |
| Controller.Apply | script.js:19-44 | no request means no change. A request that schedules no timer leaves the state alone. One that schedules a timer raises `animating` and lands on a scene or on NaN |
| Controller.Perform | script.js:23-34 | no contract of its own; `Controller.PerformKeepsInv` says the page invariant (classes follow the index, the latest reset pending while animating) survives it, and `Properties.ForwardAdvances`, `Properties.BackwardRetreats`, `Properties.ImmediateJump` and `Controller.NaNAccepted` give its result for each kind of request |
| Controller.Step | script.js:50-148 | no contract of its own; its behaviour per event is stated by `Properties.WheelIgnored`, `Properties.KeyIgnored`, `Properties.ForwardAdvances`, `Properties.BackwardRetreats`, `Properties.HashJumps`, `Properties.MenuLinkDefers`, `Properties.DownArrowNavigates`, `Properties.ResizeChangesNothing`, `Properties.ResetFiresLowersFlag` and `Controller.StepKeepsInv` |
| Controller.Init | script.js:8-143 | no contract of its own (load sets the index at lines 8-9, applies the positions at line 47 and checks the fragment at line 143); `Controller.InitInv`, `Properties.InitWithoutFragment` and `Properties.LoadWithFragment` state the page it produces |
| Controller.PerformKeepsInv | script.js:11-35 | carrying out any request keeps the page invariant |
| Controller.StepKeepsInv | script.js:19-148 | every event keeps the invariant. The classes follow the index, and the index is NaN, a scene, or the initial 0. While `animating` is up, the latest transition's reset is still pending |
| Controller.RunKeepsInv | script.js:19-148 | any sequence of events keeps the invariant |
| Controller.InitInv | script.js:8-143 | the page satisfies the invariant right after load and the initial fragment check |
| Controller.Reachable | script.js:8-148 | on every page reachable from load the classes follow the index. Exactly one scene is active when the index is an integer and there are scenes, and none when it is NaN. A raised `animating` always has a pending reset |
| Controller.StepKeepsNumbers | script.js:50-57 | with at least one scene, every event except an unparsable menu link keeps NaN out of the index and out of the queued navigations |
| Controller.UnparsableMenuLinkBlanksScenes | script.js:90-97 | a menu link whose `data-section` does not parse makes NaN the index once its microtask runs, and then no scene is active |
| Controller.NaNAccepted | script.js:20-25 | on an idle page a NaN request is accepted and every scene is repositioned against NaN |
| Controller.MenuLinkThenMicrotask | script.js:96-98 | a menu-link click followed by its microtask performs the link's navigation on the page as it was |
| Controller.EmptyDeckGoesNaN | script.js:37-44 | with no scenes, the first arrow key after load makes the index NaN |
| Properties.WheelIgnored | script.js:119-127 | wheel input over the panel, while animating, or within 10 of zero leaves the page unchanged |
| Properties.KeyIgnored | script.js:103-116 | keys inside a text panel, and keys other than the four paging keys, leave the page unchanged |
| Properties.ForwardAdvances | script.js:37-40 | forward input on an idle page with two or more scenes moves to the next scene with an ordinary reset |
| Properties.BackwardRetreats | script.js:41-44 | backward input on an idle page with two or more scenes moves to the previous scene with an ordinary reset |
| Properties.HashJumps | script.js:136-142 | a known fragment naming another scene jumps there, even mid-transition, with a reset after 0. A fragment beyond the last scene, the current scene's own fragment and an unknown fragment change nothing |
| Properties.ImmediateJump | script.js:139 | a fragment asking for an immediate jump to another scene moves there with a reset after 0 |
| Properties.MenuLinkDefers | script.js:86-100 | a menu-link click changes nothing but the queue; when its microtask runs, the page does a non-immediate `goToSection` to the parsed `data-section` |
| Properties.DownArrowNavigates | script.js:50-57 | a down arrow with an unparsable `data-next` does nothing; otherwise it does a non-immediate `goToSection` |
| Properties.ResizeChangesNothing | script.js:146-148 | on a reachable page the resize refresh changes nothing |
| Properties.ResetFiresLowersFlag | script.js:32-34 | a pending reset firing lowers `animating` whichever transition scheduled it. The index is kept and exactly that reset leaves the pending multiset |
| Properties.StaleResetCutsTransitionShort | script.js:21-34 | without reduced motion and with a positive transition duration, a concrete trace on four scenes where the first transition's reset fires during a later transition and lowers `animating`. That transition's own reset is still pending, and a further ArrowUp is then accepted mid-transition |
| Properties.LoadWithFragment | script.js:136-143 | loading with a later scene's fragment opens that scene with a reset after 0. The first scene's fragment, a fragment beyond the last scene and an unknown fragment leave the page at scene 0, idle |
| Properties.InitWithoutFragment | script.js:8-143 | loading without a fragment leaves the page at scene 0, idle, with the positions applied |

## Behaviour worth noting

- `parseInt(duration, 10) || 480` falls back to 480 not only when the
  duration does not parse but also when it parses to 0, since 0 is falsy
  (`Navigation.TransitionMs`, `Navigation.DurationOfDecimal`).
- The script's class logic leaves no scene active in two cases:
  - an accepted NaN index, which a menu link whose `data-section` does not
    parse brings in (`Controller.UnparsableMenuLinkBlanksScenes`);
  - a page with no scenes, where in addition the first arrow key makes the
    index NaN, because `% scenes.length` is `% 0`
    (`Controller.EmptyDeckGoesNaN`).

  `Controller.Reachable` therefore states "exactly one active scene" only
  for an integer index on a page with scenes, and "none" for NaN.
- The initial index 0 is kept even when there are no scenes, so the page
  invariant allows `Int(0)` besides the scenes and NaN.
- The reset timer is never cancelled, so a stale reset can lower
  `animating` in the middle of a later transition
  (`Properties.StaleResetCutsTransitionShort`).

## Left out

- DOM querying, `classList` mutation and listener registration: scenes are
  a sequence of classes, and handlers are `Controller.Step` cases.
- The menu overlay's open/close, aria attributes, focus moves, Escape and
  backdrop handlers (script.js:60-84, 93): they touch no navigation state.
  A menu-link click is modelled only by its deferred navigation; its
  unconditional `preventDefault()` (script.js:89), which only stops the
  anchor's own navigation, is not modelled.
- Real time: `setTimeout` is a pending reset that the `ResetFires(k)` event
  fires, in any order. The model does not order resets by their delays.
  The browser converts the delay to a 32-bit signed integer and treats a
  negative result as 0, so a negative duration, one of 2^31 or more, or one
  whose digit run is too long for a double (which parses to `Infinity`)
  gives a different real delay. `ResetAfter` and `PendingReset` record the
  unbounded value passed to `setTimeout`; since resets fire in any order in
  the model, the delay value has no effect on it.
- Microtask priority: a queued menu-link navigation runs at a `MicrotaskRuns`
  event that may come after other events. This over-approximates the
  browser, where the microtask runs before any further event.
- `getComputedStyle` and `matchMedia` are taken as the `Env` input of each
  event. `composedPath()`/`closest()` are reduced to the `overPanel` and
  `inPanel` booleans.
- Floating point: indices are unbounded integers. Double rounding above 2^53
  and the sign of zero play no part here. `-0` behaves like `0` under every
  operator the script uses.
- A missing attribute: `getAttribute('data-next')` (script.js:52) returns
  `null` and `a.dataset.section` (script.js:90) returns `undefined`.
  `parseInt` turns both into NaN, since their string forms `"null"` and
  `"undefined"` hold no digit. This is modelled as an input string without
  digits.
- Wheel `deltaY` is a real number; NaN or infinite deltas are not modelled.

=== FILE: controller.dfy ===
/**
 The whole page as an event-driven state holder: the navigation state, the
 scene classes, the resets scheduled with `setTimeout` and not yet fired,
 and the menu-link navigations waiting for their microtask. Timers and
 microtasks are explicit events, so they can be delivered in any order and
 at any point, which is what the script allows (it never cancels a timer).
 */
module Controller {
  import opened JsNumbers
  import opened Scenes
  import opened Navigation
  import opened Inputs

  /** A reset of `animating` scheduled by the `transition`-th accepted
      transition, with the delay it was given. */
  datatype PendingReset = PendingReset(transition: nat, delay: int)

  datatype Page = Page(
    nav: State,
    scenes: seq<Display>,
    transitions: nat,             // accepted transitions so far
    resets: seq<PendingReset>,    // scheduled, not yet fired
    deferred: seq<Command>        // menu-link navigations awaiting their microtask
  )

  /** Everything that can happen to the page. */
  datatype Event =
    | Wheel(overPanel: bool, deltaY: real)
    | Key(inPanel: bool, key: string)
    | DownArrowClick(dataNext: string)
    | MenuLinkClick(dataSection: string)
    | MicrotaskRuns
    | HashChange(hash: string)
    | Resize
    | ResetFires(k: nat)

  /** An event together with what the browser reports while it is handled. */
  datatype Input = Input(event: Event, env: Env)

  /** Carries out one navigation request on the navigation state. */
  function Apply(n: nat, s: State, cmd: Command, env: Env): (r: Outcome)
    ensures cmd == Nothing ==> r == Outcome(s, NoTimer)
    ensures r.timer.NoTimer? ==> r.state == s
    ensures r.timer.ResetAfter? ==> r.state.animating && (r.state.current.NaN? || InRange(n, r.state.current))
  {
    match cmd
    case Nothing => Outcome(s, NoTimer)
    case Next => NextSection(n, s, env)
    case Prev => PrevSection(n, s, env)
    case Goto(index, immediate) => GoToSection(n, s, index, immediate, env)
  }

  /** Carries out a request on the page: an accepted transition re-applies
      the positions and leaves a pending reset behind. */
  function Perform(n: nat, p: Page, cmd: Command, env: Env): Page {
    var o := Apply(n, p.nav, cmd, env);
    match o.timer
    case NoTimer => p
    case ResetAfter(delay) =>
      Page(o.state, ApplyPositions(p.scenes, o.state.current), p.transitions + 1,
           p.resets + [PendingReset(p.transitions + 1, delay)], p.deferred)
  }

  /** One event on a page with `n` scenes. */
  function Step(n: nat, p: Page, e: Event, env: Env): Page {
    match e
    case Wheel(overPanel, deltaY) => Perform(n, p, WheelHandling(overPanel, p.nav.animating, deltaY).command, env)
    case Key(inPanel, key) => Perform(n, p, KeyHandling(inPanel, key).command, env)
    case DownArrowClick(dataNext) => Perform(n, p, DownArrowCommand(dataNext), env)
    case MenuLinkClick(dataSection) => p.(deferred := p.deferred + [MenuLinkTarget(dataSection)])
    case MicrotaskRuns =>
      if |p.deferred| == 0 then p else Perform(n, p.(deferred := p.deferred[1..]), p.deferred[0], env)
    case HashChange(hash) => Perform(n, p, HashCommand(hash), env)
    case Resize => p.(scenes := ApplyPositions(p.scenes, p.nav.current))
    case ResetFires(k) =>
      if k < |p.resets| then p.(nav := TimerFires(p.nav), resets := p.resets[..k] + p.resets[k + 1..])
      else p
  }

  /** Page load: the scenes as marked up, index 0, positions applied, then the
      URL fragment looked at once. */
  function Init(markup: seq<Display>, hash: string, env: Env): Page {
    var start := Page(Initial, ApplyPositions(markup, Initial.current), 0, [], []);
    Step(|markup|, start, HashChange(hash), env)
  }

  /** A sequence of events, in order. */
  function Run(n: nat, p: Page, trace: seq<Input>): Page
    decreases |trace|
  {
    if |trace| == 0 then p else Run(n, Step(n, p, trace[0].event, trace[0].env), trace[1..])
  }

  // ---------------------------------------------------------------------
  // The invariant of every reachable page
  // ---------------------------------------------------------------------

  /** There are `n` scenes; their classes are the ones `applyPositions` gives
      for the current index; the index is NaN, the initial 0, or a scene;
      and while `animating` is raised, the reset scheduled by the latest
      transition is still pending, so the flag always comes down again. */
  ghost predicate Inv(n: nat, p: Page) {
    && |p.scenes| == n
    && p.scenes == ApplyPositions(p.scenes, p.nav.current)
    && (p.nav.current.Int? ==> InRange(n, p.nav.current) || p.nav.current == Int(0))
    && (p.nav.animating ==> exists k :: 0 <= k < |p.resets| && p.resets[k].transition == p.transitions)
  }

  lemma PerformKeepsInv(n: nat, p: Page, cmd: Command, env: Env)
    requires Inv(n, p)
    ensures Inv(n, Perform(n, p, cmd, env))
  {
    var o := Apply(n, p.nav, cmd, env);
    if o.timer.ResetAfter? {
      var q := Perform(n, p, cmd, env);
      ApplyPositionsIdempotent(p.scenes, p.scenes, o.state.current);
      assert q.resets[|p.resets|].transition == q.transitions;
    }
  }

  lemma {:induction false} StepKeepsInv(n: nat, p: Page, e: Event, env: Env)
    requires Inv(n, p)
    ensures Inv(n, Step(n, p, e, env))
  {
    match e
    case Wheel(overPanel, deltaY) =>
      PerformKeepsInv(n, p, WheelHandling(overPanel, p.nav.animating, deltaY).command, env);
    case Key(inPanel, key) =>
      PerformKeepsInv(n, p, KeyHandling(inPanel, key).command, env);
    case DownArrowClick(dataNext) =>
      PerformKeepsInv(n, p, DownArrowCommand(dataNext), env);
    case MenuLinkClick(dataSection) =>
    case MicrotaskRuns =>
      if |p.deferred| > 0 {
        PerformKeepsInv(n, p.(deferred := p.deferred[1..]), p.deferred[0], env);
      }
    case HashChange(hash) =>
      PerformKeepsInv(n, p, HashCommand(hash), env);
    case Resize =>
    case ResetFires(k) =>
  }

  lemma {:induction false} RunKeepsInv(n: nat, p: Page, trace: seq<Input>)
    requires Inv(n, p)
    ensures Inv(n, Run(n, p, trace))
    decreases |trace|
  {
    if |trace| > 0 {
      StepKeepsInv(n, p, trace[0].event, trace[0].env);
      RunKeepsInv(n, Step(n, p, trace[0].event, trace[0].env), trace[1..]);
    }
  }

  lemma InitInv(markup: seq<Display>, hash: string, env: Env)
    ensures Inv(|markup|, Init(markup, hash, env))
  {
    var start := Page(Initial, ApplyPositions(markup, Initial.current), 0, [], []);
    ApplyPositionsIdempotent(markup, markup, Initial.current);
    assert Inv(|markup|, start);
    StepKeepsInv(|markup|, start, HashChange(hash), env);
  }

  /** Whatever happens after page load, the scene classes follow the
      current index (scene `i` is `above` exactly when `i < current` and
      `active` exactly when `i == current`); with an integer index and at
      least one scene exactly one scene is active, with NaN none is; and a
      raised `animating` always has its reset pending. */
  lemma Reachable(markup: seq<Display>, hash: string, env: Env, trace: seq<Input>)
    ensures var p := Run(|markup|, Init(markup, hash, env), trace);
      && |p.scenes| == |markup|
      && (forall i :: 0 <= i < |p.scenes| ==>
            (p.scenes[i] == Above <==> p.nav.current.Int? && i < p.nav.current.value))
      && (forall i :: 0 <= i < |p.scenes| ==> (p.scenes[i] == Active <==> p.nav.current == Int(i)))
      && (|markup| > 0 && p.nav.current.Int? ==> ActiveCount(p.scenes) == 1)
      && (p.nav.current.NaN? ==> ActiveCount(p.scenes) == 0)
      && (p.nav.animating ==> |p.resets| > 0)
  {
    var n := |markup|;
    InitInv(markup, hash, env);
    RunKeepsInv(n, Init(markup, hash, env), trace);
    var p := Run(n, Init(markup, hash, env), trace);
    if n > 0 && p.nav.current.Int? {
      ExactlyOneActive(p.scenes, p.nav.current.value);
    }
    if p.nav.current.NaN? {
      NoneActiveAtNaN(p.scenes);
    }
  }

  // ---------------------------------------------------------------------
  // Keeping NaN out
  // ---------------------------------------------------------------------

  /** No NaN anywhere: neither as the current index nor in a waiting
      menu-link navigation. */
  ghost predicate NumbersOnly(p: Page) {
    && p.nav.current.Int?
    && forall j :: 0 <= j < |p.deferred| ==> p.deferred[j].Goto? && p.deferred[j].index.Int?
  }

  /** A menu link whose `data-section` does not parse. */
  predicate UnparsableMenuLink(e: Event) {
    e.MenuLinkClick? && ParseInt(e.dataSection).NaN?
  }

  lemma PerformKeepsNumbers(n: nat, p: Page, cmd: Command, env: Env)
    requires n > 0 && Inv(n, p) && NumbersOnly(p)
    requires cmd.Goto? ==> cmd.index.Int?
    ensures NumbersOnly(Perform(n, p, cmd, env))
  {
  }

  /** With at least one scene, the only event that can bring NaN in is a
      click on a menu link whose `data-section` does not parse: every other
      input is filtered (down arrows), comes from a fixed table (hash) or is
      computed from an index already in range (next and previous). */
  lemma StepKeepsNumbers(n: nat, p: Page, e: Event, env: Env)
    requires n > 0 && Inv(n, p) && NumbersOnly(p)
    requires !UnparsableMenuLink(e)
    ensures NumbersOnly(Step(n, p, e, env))
  {
    match e
    case Wheel(overPanel, deltaY) =>
      PerformKeepsNumbers(n, p, WheelHandling(overPanel, p.nav.animating, deltaY).command, env);
    case Key(inPanel, key) =>
      PerformKeepsNumbers(n, p, KeyHandling(inPanel, key).command, env);
    case DownArrowClick(dataNext) =>
      PerformKeepsNumbers(n, p, DownArrowCommand(dataNext), env);
    case MenuLinkClick(dataSection) =>
      var q := Step(n, p, e, env);
      assert q.deferred == p.deferred + [MenuLinkTarget(dataSection)];
    case MicrotaskRuns =>
      if |p.deferred| > 0 {
        var rest := p.(deferred := p.deferred[1..]);
        assert NumbersOnly(rest) by {
          forall j | 0 <= j < |rest.deferred|
            ensures rest.deferred[j].Goto? && rest.deferred[j].index.Int?
          {
            assert rest.deferred[j] == p.deferred[j + 1];
          }
        }
        PerformKeepsNumbers(n, rest, p.deferred[0], env);
      }
    case HashChange(hash) =>
      PerformKeepsNumbers(n, p, HashCommand(hash), env);
    case Resize =>
    case ResetFires(k) =>
  }

  /** The unfiltered menu link in action: a `data-section` that does not
      parse, delivered once the microtask runs on an idle page, makes NaN the
      current index, after which no scene is active at all. */
  lemma UnparsableMenuLinkBlanksScenes(n: nat, p: Page, dataSection: string, env: Env)
    requires !p.nav.animating && p.deferred == []
    requires ParseInt(dataSection).NaN?
    ensures var q := Step(n, Step(n, p, MenuLinkClick(dataSection), env), MicrotaskRuns, env);
      q.nav == State(NaN, true) && ActiveCount(q.scenes) == 0
  {
    MenuLinkThenMicrotask(n, p, dataSection, env);
    assert MenuLinkTarget(dataSection) == Goto(NaN, false);
    NaNAccepted(n, p, env);
    NoneActiveAtNaN(p.scenes);
  }

  /** On an idle page a request for NaN is accepted: NaN becomes the index
      and every scene is repositioned against it. */
  lemma NaNAccepted(n: nat, p: Page, env: Env)
    requires !p.nav.animating
    ensures var q := Perform(n, p, Goto(NaN, false), env);
      q.nav == State(NaN, true) && q.scenes == ApplyPositions(p.scenes, NaN)
  {
    var o := Apply(n, p.nav, Goto(NaN, false), env);
    assert o == Outcome(State(NaN, true), ResetAfter(ResetDelay(false, env)));
  }

  /** A menu-link click followed by its microtask, with nothing queued
      before, performs the link's navigation on the page as it was. */
  lemma MenuLinkThenMicrotask(n: nat, p: Page, dataSection: string, env: Env)
    requires p.deferred == []
    ensures Step(n, Step(n, p, MenuLinkClick(dataSection), env), MicrotaskRuns, env)
      == Perform(n, p, MenuLinkTarget(dataSection), env)
  {
    var p1 := p.(deferred := [MenuLinkTarget(dataSection)]);
    assert Step(n, p, MenuLinkClick(dataSection), env) == p1;
    assert p1.(deferred := p1.deferred[1..]) == p;
  }

  /** With no scenes at all, `% scenes.length` yields NaN: the first arrow
      key after load makes NaN the current index. */
  lemma EmptyDeckGoesNaN(hash: string, key: string, env: Env)
    requires IsForwardKey(key) || IsBackwardKey(key)
    ensures Step(0, Init([], hash, env), Key(false, key), env).nav == State(NaN, true)
  {
    var p := Init([], hash, env);
    assert p.nav == Initial;
  }
}

=== FILE: inputs.dfy ===
/**
 The input adapters of script.js as pure decisions: what a wheel event, a
 key press, a down-arrow click, a menu-link click or a URL fragment asks the
 navigation to do, and whether the browser's default action is suppressed.
 */
module Inputs {
  import opened JsNumbers

  /** A navigation request: nothing, `nextSection()`, `prevSection()`, or
      `goToSection(index, { immediate })`. */
  datatype Command = Nothing | Next | Prev | Goto(index: JsInt, immediate: bool)

  /** What a handler decides: the request, and whether it calls `preventDefault()`. */
  datatype Handling = Handling(command: Command, preventDefault: bool)

  datatype Option<T> = None | Some(value: T)

  /** Wheel deltas within this distance of zero are ignored. */
  const WheelThreshold: real := 10.0

  /** The wheel handler. `overPanel` says whether the event path crosses the
      scrollable `.text-content` element, which then scrolls natively. */
  function WheelHandling(overPanel: bool, animating: bool, deltaY: real): (h: Handling)
    ensures overPanel ==> h == Handling(Nothing, false)
    ensures !overPanel ==> h.preventDefault
    ensures h.command == Next <==> !overPanel && !animating && deltaY > WheelThreshold
    ensures h.command == Prev <==> !overPanel && !animating && deltaY < -WheelThreshold
    ensures h.command == Nothing || h.command == Next || h.command == Prev
  {
    if overPanel then Handling(Nothing, false)
    else if animating then Handling(Nothing, true)
    else if deltaY > WheelThreshold then Handling(Next, true)
    else if deltaY < -WheelThreshold then Handling(Prev, true)
    else Handling(Nothing, true)
  }

  predicate IsForwardKey(key: string) {
    key == "ArrowDown" || key == "PageDown"
  }

  predicate IsBackwardKey(key: string) {
    key == "ArrowUp" || key == "PageUp"
  }

  /** The window keydown handler. `inPanel` says whether the focused element
      sits inside a `.text-side` panel, whose keys are left to the panel. */
  function KeyHandling(inPanel: bool, key: string): (h: Handling)
    ensures h.command == Next <==> !inPanel && IsForwardKey(key)
    ensures h.command == Prev <==> !inPanel && IsBackwardKey(key)
    ensures h.preventDefault <==> h.command != Nothing
    ensures h.command == Nothing || h.command == Next || h.command == Prev
  {
    if inPanel then Handling(Nothing, false)
    else if IsForwardKey(key) then Handling(Next, true)
    else if IsBackwardKey(key) then Handling(Prev, true)
    else Handling(Nothing, false)
  }

  /** The click handler of a `.down-arrow` button, given its `data-next`
      attribute: an unparsable value is filtered out. A missing attribute
      reads as `null`, which `parseInt` turns into NaN as well. */
  function DownArrowCommand(dataNext: string): (c: Command)
    ensures c == Nothing <==> ParseInt(dataNext).NaN?
    ensures c != Nothing ==> c == Goto(ParseInt(dataNext), false) && c.index.Int?
  {
    var idx := ParseInt(dataNext);
    if idx.NaN? then Nothing else Goto(idx, false)
  }

  /** The index a menu link asks for once its microtask runs, given its
      `data-section` attribute. Unlike the down arrows, nothing filters NaN. */
  function MenuLinkTarget(dataSection: string): (c: Command)
    ensures c.Goto? && !c.immediate
    ensures c == Goto(ParseInt(dataSection), false)
    ensures c.index.NaN? <==> ParseInt(dataSection).NaN?
  {
    Goto(ParseInt(dataSection), false)
  }

  /** The `idToIndex` table of fragment identifiers. */
  const IdToIndexTable: map<string, nat> := map[
    "section-hero" := 0,
    "section-sub1" := 1,
    "section-sub2" := 2,
    "section-sub3" := 3
  ]

  /** `idToIndex.hasOwnProperty(id) ? idToIndex[id] : none`. Only the
      object's own keys count, so inherited names such as `toString` miss. */
  function IdToIndex(id: string): (r: Option<nat>)
    ensures r.Some? <==> id in IdToIndexTable
    ensures r.Some? ==> r.value < 4
  {
    if id in IdToIndexTable then Some(IdToIndexTable[id]) else None
  }

  /** The position of the first `c` in `s`, or `|s|` when there is none. */
  function IndexOf(s: string, c: char): (k: nat)
    ensures k <= |s|
    ensures forall i :: 0 <= i < k ==> s[i] != c
    ensures k < |s| ==> s[k] == c
  {
    if |s| == 0 then 0
    else if s[0] == c then 0
    else 1 + IndexOf(s[1..], c)
  }

  /** `s.replace(c, '')` with a one-character pattern: only the first
      occurrence goes. */
  function RemoveFirst(s: string, c: char): (r: string)
    ensures c !in s ==> r == s
    ensures c in s ==> |r| == |s| - 1
    ensures |s| > 0 && s[0] == c ==> r == s[1..]
  {
    var k := IndexOf(s, c);
    if k < |s| then s[..k] + s[k + 1..] else s
  }

  /** `goToHash`: the fragment identifier of `location.hash`, looked up in the
      table; a hit asks for an immediate jump, anything else for nothing. */
  function HashCommand(hash: string): (c: Command)
    ensures c == Nothing || (c.Goto? && c.immediate && c.index.Int? && 0 <= c.index.value < 4)
    ensures c.Goto? <==> RemoveFirst(hash, '#') in IdToIndexTable
  {
    match IdToIndex(RemoveFirst(hash, '#'))
    case Some(i) => Goto(Int(i), true)
    case None => Nothing
  }

  /** The table sends exactly the four section identifiers to 0 to 3, in
      order, and nothing else anywhere. */
  lemma IdToIndexExactly(id: string, i: nat)
    ensures IdToIndex(id) == Some(i) <==>
      (i == 0 && id == "section-hero") || (i == 1 && id == "section-sub1") ||
      (i == 2 && id == "section-sub2") || (i == 3 && id == "section-sub3")
  {
  }

  /** A `#` followed by a section identifier asks for an immediate jump to
      that section; a fragment outside the table asks for nothing. */
  lemma HashOfSection(id: string)
    ensures id in IdToIndexTable ==> HashCommand("#" + id) == Goto(Int(IdToIndexTable[id]), true)
    ensures id !in IdToIndexTable ==> HashCommand("#" + id) == Nothing
  {
    assert ("#" + id)[1..] == id;
  }
}

=== FILE: js_numbers.dfy ===
/**
 The slice of JavaScript number semantics the navigation script relies on:
 integer values that may be NaN, the comparisons and arithmetic applied to
 scene indices, and `parseInt(s, 10)` on attribute and style strings.
 */
module JsNumbers {

  /** A JavaScript number as the script uses it: an integer or NaN.
      Negative zero only arises from `parseInt("-0")`, and it behaves as 0
      under every operator the script applies to it (`<`, `>=`, `===`, `+`,
      `%`, truthiness), so it is folded into `Int(0)`. */
  datatype JsInt = NaN | Int(value: int)

  function Abs(x: int): nat { if x < 0 then -x else x }

  /** `a < b`; every comparison with NaN is false. */
  predicate Less(a: JsInt, b: JsInt) {
    a.Int? && b.Int? && a.value < b.value
  }

  /** `a >= b`; every comparison with NaN is false. */
  predicate AtLeast(a: JsInt, b: JsInt) {
    a.Int? && b.Int? && a.value >= b.value
  }

  /** `a === b`; NaN is not strictly equal to anything, itself included. */
  predicate StrictEquals(a: JsInt, b: JsInt) {
    a.Int? && b.Int? && a.value == b.value
  }

  /** Truthiness of a number, as `x || fallback` reads it: NaN and 0 are falsy. */
  predicate Truthy(a: JsInt) {
    a.Int? && a.value != 0
  }

  function Add(a: JsInt, b: JsInt): (r: JsInt)
    ensures r.Int? <==> a.Int? && b.Int?
    ensures r.Int? ==> r.value - b.value == a.value
  {
    if a.Int? && b.Int? then Int(a.value + b.value) else NaN
  }

  function Sub(a: JsInt, b: JsInt): (r: JsInt)
    ensures r.Int? <==> a.Int? && b.Int?
    ensures r.Int? ==> r.value + b.value == a.value
  {
    if a.Int? && b.Int? then Int(a.value - b.value) else NaN
  }

  /** `a % b`. The remainder truncates toward zero, so it carries the sign
      of the dividend, and a zero divisor gives NaN. */
  function Rem(a: JsInt, b: JsInt): (r: JsInt)
    ensures r.Int? <==> a.Int? && b.Int? && b.value != 0
    ensures r.Int? && a.value >= 0 ==> 0 <= r.value < Abs(b.value)
    ensures r.Int? && a.value < 0 ==> -(Abs(b.value) as int) < r.value <= 0
    ensures r.Int? && a.value >= 0 ==> r.value == a.value % Abs(b.value)
    ensures r.Int? && a.value < 0 ==> r.value == -((-a.value) % Abs(b.value))
  {
    if a.NaN? || b.NaN? || b.value == 0 then NaN
    else if a.value >= 0 then Int(a.value % Abs(b.value))
    else Int(-((-a.value) % Abs(b.value)))
  }

  /** Division with remainder on naturals. */
  lemma DivMod(x: nat, m: nat)
    requires m > 0
    ensures x == (x / m) * m + x % m
  {
  }

  /** The remainder differs from the dividend by a multiple of the divisor:
      together with the sign and magnitude bounds of `Rem` this pins down
      the truncating remainder. */
  lemma RemCongruent(a: JsInt, b: JsInt) returns (q: int)
    requires a.Int? && b.Int? && b.value != 0
    ensures a.value == q * Abs(b.value) + Rem(a, b).value
  {
    var m := Abs(b.value);
    if a.value >= 0 {
      DivMod(a.value, m);
      q := a.value / m;
    } else {
      DivMod(-a.value, m);
      q := -((-a.value) / m);
    }
  }

  // ---------------------------------------------------------------------
  // parseInt(s, 10)
  // ---------------------------------------------------------------------

  /** The ECMAScript StrWhiteSpaceChar set (WhiteSpace and LineTerminator),
      which both `parseInt` and `String.prototype.trim` skip. */
  predicate IsWhiteSpace(c: char) {
    || c == '\t' || c == '\n' || c == '\U{B}' || c == '\U{C}' || c == '\r'
    || c == ' ' || c == '\U{A0}' || c == '\U{1680}'
    || ('\U{2000}' <= c <= '\U{200A}')
    || c == '\U{2028}' || c == '\U{2029}' || c == '\U{202F}' || c == '\U{205F}'
    || c == '\U{3000}' || c == '\U{FEFF}'
  }

  predicate IsDigit(c: char) {
    '0' <= c <= '9'
  }

  predicate AllDigits(s: string) {
    forall i :: 0 <= i < |s| ==> IsDigit(s[i])
  }

  function DigitValue(c: char): (d: nat)
    requires IsDigit(c)
    ensures d < 10
  {
    (c as int) - ('0' as int)
  }

  function DigitChar(d: nat): (c: char)
    requires d < 10
    ensures IsDigit(c) && DigitValue(c) == d
  {
    (('0' as int) + d) as char
  }

  /** Drops leading white space. */
  function TrimStart(s: string): (t: string)
    ensures |t| <= |s| && t == s[|s| - |t|..]
    ensures t == [] || !IsWhiteSpace(t[0])
  {
    if |s| > 0 && IsWhiteSpace(s[0]) then TrimStart(s[1..]) else s
  }

  /** Drops trailing white space. */
  function TrimEnd(s: string): (t: string)
    ensures |t| <= |s| && t == s[..|t|]
    ensures |t| < |s| ==> IsWhiteSpace(s[|t|])
    ensures t == [] || !IsWhiteSpace(t[|t| - 1])
  {
    if |s| > 0 && IsWhiteSpace(s[|s| - 1]) then TrimEnd(s[..|s| - 1]) else s
  }

  /** Everything `TrimStart` drops is white space. */
  lemma {:induction false} TrimStartCutsOnlySpace(s: string)
    ensures forall i :: 0 <= i < |s| - |TrimStart(s)| ==> IsWhiteSpace(s[i])
    decreases |s|
  {
    if |s| > 0 && IsWhiteSpace(s[0]) {
      var tail := s[1..];
      TrimStartCutsOnlySpace(tail);
      assert TrimStart(s) == TrimStart(tail);
      forall i | 0 <= i < |s| - |TrimStart(s)|
        ensures IsWhiteSpace(s[i])
      {
        if i > 0 {
          assert s[i] == tail[i - 1];
        }
      }
    }
  }

  /** Everything `TrimEnd` drops is white space. */
  lemma {:induction false} TrimEndCutsOnlySpace(s: string)
    ensures forall i :: |TrimEnd(s)| <= i < |s| ==> IsWhiteSpace(s[i])
    decreases |s|
  {
    if |s| > 0 && IsWhiteSpace(s[|s| - 1]) {
      var init := s[..|s| - 1];
      TrimEndCutsOnlySpace(init);
      assert TrimEnd(s) == TrimEnd(init);
      forall i | |TrimEnd(s)| <= i < |s|
        ensures IsWhiteSpace(s[i])
      {
        if i < |s| - 1 {
          assert s[i] == init[i];
        }
      }
    }
  }

  /** `String.prototype.trim`. */
  function Trim(s: string): string {
    TrimEnd(TrimStart(s))
  }

  /** The longest prefix of `s` made of decimal digits. */
  function DigitPrefix(s: string): (p: string)
    ensures |p| <= |s| && p == s[..|p|]
    ensures AllDigits(p)
    ensures |p| == |s| || !IsDigit(s[|p|])
  {
    if |s| > 0 && IsDigit(s[0]) then [s[0]] + DigitPrefix(s[1..]) else []
  }

  /** The value of a string of decimal digits, most significant first. */
  function DigitsValue(ds: string): nat
    requires AllDigits(ds)
  {
    if |ds| == 0 then 0 else 10 * DigitsValue(ds[..|ds| - 1]) + DigitValue(ds[|ds| - 1])
  }

  /** Whether `t` opens with a minus sign. */
  predicate Negative(t: string) {
    |t| > 0 && t[0] == '-'
  }

  /** `t` without its optional leading sign. */
  function Unsigned(t: string): string {
    if |t| > 0 && (t[0] == '-' || t[0] == '+') then t[1..] else t
  }

  /** `parseInt` with radix 10 once leading white space is gone: an optional
      sign, then the longest run of digits; no digits at all gives NaN. */
  function ParseSigned(t: string): JsInt {
    var digits := DigitPrefix(Unsigned(t));
    if |digits| == 0 then NaN
    else if Negative(t) then Int(-(DigitsValue(digits) as int))
    else Int(DigitsValue(digits))
  }

  /** `parseInt(s, 10)`: leading white space is skipped, then the sign and
      digits are read. With an explicit radix of 10 no `0x` prefix is
      recognised, and everything after the first non-digit is ignored. */
  function ParseInt(s: string): JsInt {
    if |s| > 0 && IsWhiteSpace(s[0]) then ParseInt(s[1..]) else ParseSigned(s)
  }

  // ---------------------------------------------------------------------
  // Decimal rendering, the inverse of ParseInt
  // ---------------------------------------------------------------------

  /** The decimal digits of `k`, without leading zeros. */
  function NatDigits(k: nat): (ds: string)
    ensures |ds| > 0 && AllDigits(ds)
    ensures DigitsValue(ds) == k
  {
    if k < 10 then [DigitChar(k)]
    else
      var front := NatDigits(k / 10);
      var ds := front + [DigitChar(k % 10)];
      assert ds[..|ds| - 1] == front;
      ds
  }

  /** The decimal rendering of an integer, as `String(k)` writes it. */
  function Decimal(k: int): string {
    if k < 0 then "-" + NatDigits(-k) else NatDigits(k)
  }

  lemma {:induction false} DigitPrefixStops(ds: string, rest: string)
    requires rest == [] || !IsDigit(rest[0])
    ensures DigitPrefix(ds + rest) == DigitPrefix(ds)
    decreases |ds|
  {
    if |ds| == 0 {
      assert ds + rest == rest;
    } else {
      assert (ds + rest)[1..] == ds[1..] + rest;
      if IsDigit(ds[0]) {
        DigitPrefixStops(ds[1..], rest);
      }
    }
  }

  lemma DigitPrefixOfDigits(ds: string, rest: string)
    requires AllDigits(ds)
    requires rest == [] || !IsDigit(rest[0])
    ensures DigitPrefix(ds + rest) == ds
  {
    DigitPrefixStops(ds, rest);
    assert DigitPrefix(ds) == ds;
  }

  lemma TrimStartStops(s: string)
    requires s == [] || !IsWhiteSpace(s[0])
    ensures TrimStart(s) == s && ParseInt(s) == ParseSigned(s)
  {
  }

  /** `parseInt` reads what is left once the leading white space is gone. */
  lemma {:induction false} ParseSkipsSpace(s: string)
    ensures ParseInt(s) == ParseSigned(TrimStart(s))
  {
    if |s| > 0 && IsWhiteSpace(s[0]) {
      ParseSkipsSpace(s[1..]);
    }
  }

  /** Unfolds ParseSigned once its digit run is known. */
  lemma ParseSignedOf(t: string, ds: string)
    requires DigitPrefix(Unsigned(t)) == ds && |ds| > 0
    ensures Negative(t) ==> ParseSigned(t) == Int(-(DigitsValue(ds) as int))
    ensures !Negative(t) ==> ParseSigned(t) == Int(DigitsValue(ds))
  {
  }

  /** A run of digits, followed by anything that does not start with a
      digit, reads as the value of the run. */
  lemma ParseDigitRun(ds: string, rest: string)
    requires |ds| > 0 && AllDigits(ds)
    requires rest == [] || !IsDigit(rest[0])
    ensures ParseInt(ds + rest) == Int(DigitsValue(ds))
  {
    var u := ds + rest;
    assert IsDigit(u[0]);
    TrimStartStops(u);
    UnsignedOfDigits(u);
    DigitPrefixOfDigits(ds, rest);
    ParseSignedOf(u, ds);
  }

  lemma UnsignedOfDigits(x: string)
    requires x != [] && IsDigit(x[0])
    ensures !Negative(x) && Unsigned(x) == x
  {
  }

  lemma UnsignedOfNegated(x: string)
    ensures Negative("-" + x) && Unsigned("-" + x) == x
  {
  }

  /** The same with a minus sign in front. */
  lemma ParseNegatedDigitRun(ds: string, rest: string)
    requires |ds| > 0 && AllDigits(ds)
    requires rest == [] || !IsDigit(rest[0])
    ensures ParseInt("-" + ds + rest) == Int(-(DigitsValue(ds) as int))
  {
    var x := ds + rest;
    var t := "-" + x;
    assert "-" + ds + rest == t;
    TrimStartStops(t);
    UnsignedOfNegated(x);
    DigitPrefixOfDigits(ds, rest);
    ParseSignedOf(t, ds);
  }

  /** Reading back a rendered integer, followed by anything that does not
      start with a digit (a unit such as `ms`, or nothing), gives the integer. */
  lemma ParseDecimal(k: int, rest: string)
    requires rest == [] || !IsDigit(rest[0])
    ensures ParseInt(Decimal(k) + rest) == Int(k)
  {
    var d := Decimal(k);
    if k < 0 {
      var ds := NatDigits(-k);
      assert d == "-" + ds;
      ParseNegatedDigitRun(ds, rest);
    } else {
      var ds := NatDigits(k);
      assert d == ds;
      ParseDigitRun(ds, rest);
    }
  }

  /** A string with no digit anywhere reads as NaN. */
  lemma ParseNoDigits(s: string)
    requires forall i :: 0 <= i < |s| ==> !IsDigit(s[i])
    ensures ParseInt(s) == NaN
  {
    ParseSkipsSpace(s);
    var t := TrimStart(s);
    var body := Unsigned(t);
    if |body| > 0 {
      assert body[0] == s[|s| - |body|];
    }
  }

  /** Whatever follows a run of digits without itself starting with a digit
      does not change what `parseInt` reads. */
  lemma ParseSignedIgnoresTail(u: string, w: string)
    requires u != []
    requires w == [] || !IsDigit(w[0])
    ensures ParseSigned(u + w) == ParseSigned(u)
  {
    assert (u + w)[0] == u[0];
    UnsignedExtends(u, w);
    DigitPrefixStops(Unsigned(u), w);
  }

  /** Trimming before parsing, as the duration read does, never changes the
      parsed value: `parseInt` skips the same leading white space and stops
      before any trailing white space. */
  lemma ParseTrimmed(s: string)
    ensures ParseInt(Trim(s)) == ParseInt(s)
  {
    var t := TrimStart(s);
    var u := TrimEnd(t);
    TrimStartStops(u);
    ParseSkipsSpace(s);
    TrimmedTail(t, u);
  }

  /** Parsing a string that starts with no white space gives the same as
      parsing it with its trailing white space removed. */
  lemma TrimmedTail(t: string, u: string)
    requires t == [] || !IsWhiteSpace(t[0])
    requires u == TrimEnd(t)
    ensures ParseSigned(u) == ParseSigned(t)
  {
    var w := t[|u|..];
    assert t == u + w;
    if u == [] {
      assert |t| == 0;
    } else {
      assert w == [] || IsWhiteSpace(w[0]);
      ParseSignedIgnoresTail(u, w);
    }
  }

  lemma UnsignedExtends(u: string, w: string)
    requires u != []
    ensures Unsigned(u + w) == Unsigned(u) + w
  {
    if u[0] == '-' || u[0] == '+' {
      assert (u + w)[1..] == u[1..] + w;
    }
  }
}

=== FILE: navigation.dfy ===
/**
 The scene-navigation state machine of script.js: `goToSection`, the delay
 of the scheduled reset, `nextSection`/`prevSection`, and the reset itself
 as a transition of its own.
 */
module Navigation {
  import opened JsNumbers

  /** The two variables the script closes over: the current scene index
      (NaN once an unparsable index has been accepted) and whether a
      transition is in flight. */
  datatype State = State(current: JsInt, animating: bool)

  /** What the browser reports while a transition is being set up: the
      computed value of the `--transition-ms` custom property and whether
      the user prefers reduced motion. */
  datatype Env = Env(transitionStyle: string, prefersReducedMotion: bool)

  /** The timer a call leaves behind: none, or a reset of `animating` after
      `delay` milliseconds. */
  datatype Timer = NoTimer | ResetAfter(delay: int)

  datatype Outcome = Outcome(state: State, timer: Timer)

  /** The state the page starts in, before any hash is looked at. */
  const Initial := State(Int(0), false)

  /** The duration used when `--transition-ms` is missing, unparsable or 0. */
  const DefaultTransitionMs := 480

  /** `parseInt(duration, 10) || 480` on the trimmed custom property. */
  function TransitionMs(style: string): (ms: int)
    ensures ms != 0
    ensures Truthy(ParseInt(style)) ==> ms == ParseInt(style).value
    ensures !Truthy(ParseInt(style)) ==> ms == DefaultTransitionMs
  {
    ParseTrimmed(style);
    var parsed := ParseInt(Trim(style));
    if Truthy(parsed) then parsed.value else DefaultTransitionMs
  }

  /** A `--transition-ms` value written as a decimal number followed by a
      unit such as `ms` gives that number, except that 0 falls back to the
      default; a value with no digit at all falls back too. */
  lemma DurationOfDecimal(k: int, unit: string)
    requires unit == [] || !IsDigit(unit[0])
    ensures TransitionMs(Decimal(k) + unit) == if k == 0 then DefaultTransitionMs else k
    ensures (forall i :: 0 <= i < |unit| ==> !IsDigit(unit[i])) ==> TransitionMs(unit) == DefaultTransitionMs
  {
    ParseDecimal(k, unit);
    if forall i :: 0 <= i < |unit| ==> !IsDigit(unit[i]) {
      ParseNoDigits(unit);
    }
  }

  /** The delay handed to `setTimeout` for the reset of `animating`. */
  function ResetDelay(immediate: bool, env: Env): (delay: int)
    ensures delay == 0 <==> immediate || env.prefersReducedMotion
    ensures !immediate && !env.prefersReducedMotion ==> delay == TransitionMs(env.transitionStyle)
  {
    var ms := TransitionMs(env.transitionStyle);
    if immediate || env.prefersReducedMotion then 0 else ms
  }

  /** Whether `index` lies among the `n` scenes. */
  predicate InRange(n: nat, index: JsInt) {
    index.Int? && 0 <= index.value < n
  }

  /** `goToSection(index, { immediate })` on a page with `n` scenes. A call
      that returns early leaves the state alone and schedules nothing; an
      accepted call moves to `index`, raises `animating` and schedules its
      reset. The range check is written with JavaScript comparisons, so a
      NaN index slips through it. */
  function GoToSection(n: nat, s: State, index: JsInt, immediate: bool, env: Env): (r: Outcome)
    ensures index.Int? && !InRange(n, index) ==> r == Outcome(s, NoTimer)
    ensures s.animating && !immediate ==> r == Outcome(s, NoTimer)
    ensures index.Int? && s.current == index ==> r == Outcome(s, NoTimer)
    ensures InRange(n, index) && s.current != index && (!s.animating || immediate) ==>
      r == Outcome(State(index, true), ResetAfter(ResetDelay(immediate, env)))
    ensures index.NaN? && (!s.animating || immediate) ==>
      r == Outcome(State(NaN, true), ResetAfter(ResetDelay(immediate, env)))
    ensures r.timer.NoTimer? ==> r.state == s
    ensures r.timer.ResetAfter? ==> r.state.animating && (r.state.current.NaN? || InRange(n, r.state.current))
  {
    if Less(index, Int(0)) || AtLeast(index, Int(n)) then Outcome(s, NoTimer)
    else if s.animating && !immediate then Outcome(s, NoTimer)
    else if StrictEquals(index, s.current) then Outcome(s, NoTimer)
    else Outcome(State(index, true), ResetAfter(ResetDelay(immediate, env)))
  }

  /** The target of `nextSection`: `(current + 1) % scenes.length`. */
  function NextIndex(n: nat, current: JsInt): (r: JsInt)
    ensures InRange(n, current) ==> InRange(n, r)
    ensures n == 0 || current.NaN? ==> r.NaN?
  {
    Rem(Add(current, Int(1)), Int(n))
  }

  /** The target of `prevSection`: `(current - 1 + scenes.length) % scenes.length`. */
  function PrevIndex(n: nat, current: JsInt): (r: JsInt)
    ensures InRange(n, current) ==> InRange(n, r)
    ensures n == 0 || current.NaN? ==> r.NaN?
  {
    Rem(Add(Sub(current, Int(1)), Int(n)), Int(n))
  }

  /** Stepping forward from the last scene wraps to the first, and any other
      scene steps to its successor. */
  lemma NextWraps(n: nat, c: int)
    requires 0 <= c < n
    ensures NextIndex(n, Int(c)) == if c == n - 1 then Int(0) else Int(c + 1)
  {
    var sum := Add(Int(c), Int(1));
    assert sum == Int(c + 1);
    if c == n - 1 {
      ModOfSelf(n);
    } else {
      ModOfSmall(c + 1, n);
    }
  }

  /** Stepping back from the first scene wraps to the last, and any other
      scene steps to its predecessor. */
  lemma PrevWraps(n: nat, c: int)
    requires 0 <= c < n
    ensures PrevIndex(n, Int(c)) == if c == 0 then Int(n - 1) else Int(c - 1)
  {
    var sum := Add(Sub(Int(c), Int(1)), Int(n));
    assert sum == Int(c - 1 + n);
    if c == 0 {
      ModOfSmall(n - 1, n);
    } else {
      ModOfShifted(c - 1, n);
    }
  }

  lemma ModOfSmall(x: int, n: int)
    requires 0 <= x < n
    ensures x % n == x
  {
  }

  lemma ModOfSelf(n: int)
    requires n > 0
    ensures n % n == 0
  {
  }

  lemma ModOfShifted(x: int, n: int)
    requires 0 <= x < n
    ensures (x + n) % n == x
  {
  }

  /** Stepping back undoes stepping forward, and the other way round. */
  lemma PrevUndoesNext(n: nat, c: int)
    requires 0 <= c < n
    ensures PrevIndex(n, NextIndex(n, Int(c))) == Int(c)
    ensures NextIndex(n, PrevIndex(n, Int(c))) == Int(c)
  {
    NextWraps(n, c);
    PrevWraps(n, c);
    if c == n - 1 {
      PrevWraps(n, 0);
    } else {
      PrevWraps(n, c + 1);
    }
    if c == 0 {
      NextWraps(n, n - 1);
    } else {
      NextWraps(n, c - 1);
    }
  }

  /** `nextSection`: a non-immediate `goToSection` to the following scene.
      With a single scene the target is the current one, so nothing happens;
      with no scenes the target is NaN. */
  function NextSection(n: nat, s: State, env: Env): (r: Outcome)
    ensures s.animating ==> r == Outcome(s, NoTimer)
    ensures n > 1 && InRange(n, s.current) && !s.animating ==>
      r.state == State(NextIndex(n, s.current), true) && r.state.current != s.current
    ensures n == 1 && InRange(n, s.current) ==> r == Outcome(s, NoTimer)
    ensures (n == 0 || s.current.NaN?) && !s.animating ==> r.state == State(NaN, true)
    ensures r.timer.NoTimer? ==> r.state == s
    ensures r.timer.ResetAfter? ==> r.state.animating && (r.state.current.NaN? || InRange(n, r.state.current))
  {
    StepMoves(n, s.current);
    GoToSection(n, s, NextIndex(n, s.current), false, env)
  }

  /** `prevSection`: a non-immediate `goToSection` to the preceding scene. */
  function PrevSection(n: nat, s: State, env: Env): (r: Outcome)
    ensures s.animating ==> r == Outcome(s, NoTimer)
    ensures n > 1 && InRange(n, s.current) && !s.animating ==>
      r.state == State(PrevIndex(n, s.current), true) && r.state.current != s.current
    ensures n == 1 && InRange(n, s.current) ==> r == Outcome(s, NoTimer)
    ensures (n == 0 || s.current.NaN?) && !s.animating ==> r.state == State(NaN, true)
    ensures r.timer.NoTimer? ==> r.state == s
    ensures r.timer.ResetAfter? ==> r.state.animating && (r.state.current.NaN? || InRange(n, r.state.current))
  {
    StepMoves(n, s.current);
    GoToSection(n, s, PrevIndex(n, s.current), false, env)
  }

  /** With two or more scenes a step in either direction lands on another
      scene; with exactly one it lands where it started. */
  lemma StepMoves(n: nat, current: JsInt)
    ensures n > 1 && InRange(n, current) ==>
      NextIndex(n, current) != current && PrevIndex(n, current) != current
    ensures n == 1 && InRange(n, current) ==>
      NextIndex(n, current) == current && PrevIndex(n, current) == current
  {
    if InRange(n, current) {
      NextWraps(n, current.value);
      PrevWraps(n, current.value);
    }
  }

  /** The scheduled timer firing: `animating` drops, the index stays. The
      timer is never cancelled, so it may fire after a later transition has
      raised the flag again. */
  function TimerFires(s: State): (r: State)
    ensures r.current == s.current && !r.animating
  {
    s.(animating := false)
  }
}

=== FILE: properties.dfy ===
/**
 What each kind of event does to a page, stated for all pages: the input
 filters that leave the page alone, the inputs that step forward or back,
 the immediate hash jump, the deferred menu-link navigation, the resize
 refresh and the uncancelled reset.
 */
module Properties {
  import opened JsNumbers
  import opened Scenes
  import opened Navigation
  import opened Inputs
  import opened Controller

  /** The page after an accepted transition to `target` whose reset was
      given `delay`. */
  function Moved(p: Page, target: JsInt, delay: int): Page {
    Page(State(target, true), ApplyPositions(p.scenes, target), p.transitions + 1,
         p.resets + [PendingReset(p.transitions + 1, delay)], p.deferred)
  }

  /** Wheel input is dropped over the text panel, while a transition is in
      flight, and for deltas of at most 10 either way. */
  lemma WheelIgnored(n: nat, p: Page, overPanel: bool, deltaY: real, env: Env)
    requires overPanel || p.nav.animating || (-WheelThreshold <= deltaY <= WheelThreshold)
    ensures Step(n, p, Wheel(overPanel, deltaY), env) == p
  {
  }

  /** Keys are left alone inside the text panel, and only the four paging
      keys do anything elsewhere. */
  lemma KeyIgnored(n: nat, p: Page, inPanel: bool, key: string, env: Env)
    requires inPanel || !(IsForwardKey(key) || IsBackwardKey(key))
    ensures Step(n, p, Key(inPanel, key), env) == p
  {
  }

  /** Forward input: a wheel delta above 10 or ArrowDown/PageDown, outside
      the panel, on an idle page whose index is a scene. */
  predicate Forward(e: Event) {
    || (e.Wheel? && !e.overPanel && e.deltaY > WheelThreshold)
    || (e.Key? && !e.inPanel && IsForwardKey(e.key))
  }

  /** Backward input: a wheel delta below -10 or ArrowUp/PageUp. */
  predicate Backward(e: Event) {
    || (e.Wheel? && !e.overPanel && e.deltaY < -WheelThreshold)
    || (e.Key? && !e.inPanel && IsBackwardKey(e.key))
  }

  /** On an idle page with two or more scenes, forward input moves to the
      next scene (wrapping after the last) with a full-length reset. */
  lemma ForwardAdvances(n: nat, p: Page, e: Event, env: Env)
    requires n > 1 && InRange(n, p.nav.current) && !p.nav.animating
    requires Forward(e)
    ensures Step(n, p, e, env) == Moved(p, NextIndex(n, p.nav.current), ResetDelay(false, env))
  {
    var cmd := if e.Wheel? then WheelHandling(e.overPanel, p.nav.animating, e.deltaY).command
               else KeyHandling(e.inPanel, e.key).command;
    assert cmd == Next;
    var o := NextSection(n, p.nav, env);
    StepMoves(n, p.nav.current);
    assert o == Outcome(State(NextIndex(n, p.nav.current), true), ResetAfter(ResetDelay(false, env)));
  }

  /** On an idle page with two or more scenes, backward input moves to the
      previous scene (wrapping before the first) with a full-length reset. */
  lemma BackwardRetreats(n: nat, p: Page, e: Event, env: Env)
    requires n > 1 && InRange(n, p.nav.current) && !p.nav.animating
    requires Backward(e)
    ensures Step(n, p, e, env) == Moved(p, PrevIndex(n, p.nav.current), ResetDelay(false, env))
  {
    var cmd := if e.Wheel? then WheelHandling(e.overPanel, p.nav.animating, e.deltaY).command
               else KeyHandling(e.inPanel, e.key).command;
    assert cmd == Prev;
    var o := PrevSection(n, p.nav, env);
    StepMoves(n, p.nav.current);
    assert o == Outcome(State(PrevIndex(n, p.nav.current), true), ResetAfter(ResetDelay(false, env)));
  }

  /** A known fragment naming a scene other than the current one jumps
      there even mid-transition, and its reset fires with no delay whatever
      the motion preference; a known fragment beyond the last scene, the
      current scene's own fragment, and any unknown fragment change nothing. */
  lemma HashJumps(n: nat, p: Page, id: string, env: Env)
    ensures id in IdToIndexTable && IdToIndexTable[id] < n && p.nav.current != Int(IdToIndexTable[id]) ==>
      Step(n, p, HashChange("#" + id), env) == Moved(p, Int(IdToIndexTable[id]), 0)
    ensures id in IdToIndexTable && (IdToIndexTable[id] >= n || p.nav.current == Int(IdToIndexTable[id])) ==>
      Step(n, p, HashChange("#" + id), env) == p
    ensures id !in IdToIndexTable ==> Step(n, p, HashChange("#" + id), env) == p
  {
    var hash := "#" + id;
    HashOfSection(id);
    HashChangePerforms(n, p, hash, env);
    if id in IdToIndexTable {
      var i := IdToIndexTable[id];
      if i < n && p.nav.current != Int(i) {
        ImmediateJump(n, p, hash, i, env);
      } else {
        assert Apply(n, p.nav, Goto(Int(i), true), env).timer.NoTimer?;
      }
    }
  }

  /** A fragment that asks for an immediate jump to another scene moves
      there with a reset after no delay. */
  lemma ImmediateJump(n: nat, p: Page, hash: string, i: nat, env: Env)
    requires HashCommand(hash) == Goto(Int(i), true)
    requires i < n && p.nav.current != Int(i)
    ensures Step(n, p, HashChange(hash), env) == Moved(p, Int(i), 0)
  {
    var o := Apply(n, p.nav, Goto(Int(i), true), env);
    assert o == Outcome(State(Int(i), true), ResetAfter(0)) by {
      assert o == GoToSection(n, p.nav, Int(i), true, env);
    }
    assert Perform(n, p, Goto(Int(i), true), env) == Moved(p, Int(i), 0);
    HashChangePerforms(n, p, hash, env);
  }

  /** A fragment change carries out whatever the fragment asks for. */
  lemma HashChangePerforms(n: nat, p: Page, hash: string, env: Env)
    ensures Step(n, p, HashChange(hash), env) == Perform(n, p, HashCommand(hash), env)
  {
  }

  /** Clicking a menu link changes nothing yet but queues the navigation;
      when its microtask runs, the navigation is an ordinary non-immediate
      `goToSection` to the parsed `data-section`. */
  lemma MenuLinkDefers(n: nat, p: Page, dataSection: string, env: Env)
    requires p.deferred == []
    ensures Step(n, p, MenuLinkClick(dataSection), env) == p.(deferred := [Goto(ParseInt(dataSection), false)])
    ensures var q := Step(n, Step(n, p, MenuLinkClick(dataSection), env), MicrotaskRuns, env);
      q.nav == GoToSection(n, p.nav, ParseInt(dataSection), false, env).state && q.deferred == []
  {
    var target := ParseInt(dataSection);
    var q := Step(n, p, MenuLinkClick(dataSection), env);
    assert q == p.(deferred := [Goto(target, false)]);
    var r := Step(n, q, MicrotaskRuns, env);
    assert r == Perform(n, p, Goto(target, false), env);
  }

  /** A down arrow with a number in `data-next` is an ordinary
      non-immediate `goToSection`; one without a number does nothing. */
  lemma DownArrowNavigates(n: nat, p: Page, dataNext: string, env: Env)
    ensures ParseInt(dataNext).NaN? ==> Step(n, p, DownArrowClick(dataNext), env) == p
    ensures ParseInt(dataNext).Int? ==>
      Step(n, p, DownArrowClick(dataNext), env).nav == GoToSection(n, p.nav, ParseInt(dataNext), false, env).state
  {
  }

  /** The resize handler re-applies the positions, which on a reachable page
      are already in place. */
  lemma ResizeChangesNothing(n: nat, p: Page, env: Env)
    requires Inv(n, p)
    ensures Step(n, p, Resize, env) == p
  {
  }

  /** A pending reset firing lowers `animating` whichever transition
      scheduled it, keeps the index, and leaves the other resets pending. */
  lemma ResetFiresLowersFlag(n: nat, p: Page, k: nat, env: Env)
    requires k < |p.resets|
    ensures var q := Step(n, p, ResetFires(k), env);
      q.nav == State(p.nav.current, false) && q.scenes == p.scenes &&
      |q.resets| == |p.resets| - 1 &&
      multiset(q.resets) + multiset{p.resets[k]} == multiset(p.resets)
  {
    var q := Step(n, p, ResetFires(k), env);
    assert p.resets == p.resets[..k] + [p.resets[k]] + p.resets[k + 1..];
  }

  /** Four scenes as marked up, before any class is applied. */
  const FourScenes: seq<Display> := [Inactive, Inactive, Inactive, Inactive]

  // The pages of the trace in StaleResetCutsTransitionShort, after each of
  // its events, where `d` is the delay of an ordinary reset.

  const Stale0 := Page(Initial, ApplyPositions(FourScenes, Int(0)), 0, [], [])

  function Stale1(d: int): Page {
    Moved(Stale0, Int(1), d)
  }

  function Stale2(d: int): Page {
    Moved(Stale1(d), Int(3), 0)
  }

  function Stale3(d: int): Page {
    Stale2(d).(nav := State(Int(3), false), resets := [PendingReset(1, d)])
  }

  function Stale4(d: int): Page {
    Moved(Stale3(d), Int(2), d)
  }

  function Stale5(d: int): Page {
    Stale4(d).(nav := State(Int(2), false), resets := [PendingReset(3, d)])
  }

  function Stale6(d: int): Page {
    Moved(Stale5(d), Int(1), d)
  }

  lemma StaleStep1(env: Env)
    ensures Step(4, Stale0, Key(false, "ArrowDown"), env) == Stale1(ResetDelay(false, env))
  {
    ForwardAdvances(4, Stale0, Key(false, "ArrowDown"), env);
    NextWraps(4, 0);
  }

  lemma StaleStep2(hash: string, env: Env)
    requires HashCommand(hash) == Goto(Int(3), true)
    ensures Step(4, Stale1(ResetDelay(false, env)), HashChange(hash), env) == Stale2(ResetDelay(false, env))
  {
    var p := Stale1(ResetDelay(false, env));
    assert p.nav.current == Int(1);
    ImmediateJump(4, p, hash, 3, env);
  }

  /** The `#section-sub3` fragment asks for an immediate jump to scene 3. */
  lemma FragmentOfScene3()
    ensures HashCommand("#section-sub3") == Goto(Int(3), true)
  {
    var hash := "#section-sub3";
    var id := hash[1..];
    assert id == "section-sub3";
    assert RemoveFirst(hash, '#') == id;
  }

  lemma StaleStep3(d: int, env: Env)
    ensures Step(4, Stale2(d), ResetFires(1), env) == Stale3(d)
  {
    assert Stale2(d).resets == [PendingReset(1, d), PendingReset(2, 0)];
  }

  lemma StaleStep4(env: Env)
    ensures Step(4, Stale3(ResetDelay(false, env)), Key(false, "ArrowUp"), env) == Stale4(ResetDelay(false, env))
  {
    BackwardRetreats(4, Stale3(ResetDelay(false, env)), Key(false, "ArrowUp"), env);
    PrevWraps(4, 3);
  }

  lemma StaleStep5(d: int, env: Env)
    ensures Step(4, Stale4(d), ResetFires(0), env) == Stale5(d)
  {
    assert Stale4(d).resets == [PendingReset(1, d), PendingReset(3, d)];
  }

  lemma StaleStep6(env: Env)
    ensures Step(4, Stale5(ResetDelay(false, env)), Key(false, "ArrowUp"), env) == Stale6(ResetDelay(false, env))
  {
    BackwardRetreats(4, Stale5(ResetDelay(false, env)), Key(false, "ArrowUp"), env);
    PrevWraps(4, 2);
  }

  /** The reset is never cancelled, so a stale one can cut a later
      transition short. On four scenes, with `d` the delay of an ordinary
      reset: ArrowDown goes to scene 1 with a reset after `d`; the
      `#section-sub3` fragment jumps to scene 3 with a reset after 0, which
      fires; ArrowUp goes to scene 2 with a reset after `d`; then the first
      reset fires. `animating` is down although the transition to scene 2
      still has its reset pending, and a further ArrowUp is accepted in the
      middle of that transition. The order of the two firings is the
      browser's only when `d` is positive, which is why reduced motion is
      excluded. */
  lemma StaleResetCutsTransitionShort(env: Env)
    requires !env.prefersReducedMotion && TransitionMs(env.transitionStyle) > 0
    ensures var d := ResetDelay(false, env);
      var p0 := Init(FourScenes, "", env);
      var p1 := Step(4, p0, Key(false, "ArrowDown"), env);
      var p2 := Step(4, p1, HashChange("#section-sub3"), env);
      var p3 := Step(4, p2, ResetFires(1), env);
      var p4 := Step(4, p3, Key(false, "ArrowUp"), env);
      var p5 := Step(4, p4, ResetFires(0), env);
      var p6 := Step(4, p5, Key(false, "ArrowUp"), env);
      && p4.nav == State(Int(2), true)
      && p4.resets == [PendingReset(1, d), PendingReset(3, d)]
      && p5.nav == State(Int(2), false)
      && p5.resets == [PendingReset(3, d)] && p5.transitions == 3
      && p6.nav == State(Int(1), true)
  {
    var d := ResetDelay(false, env);
    InitWithoutFragment(FourScenes, env);
    var p0 := Init(FourScenes, "", env);
    assert p0 == Stale0;
    StaleStep1(env);
    var p1 := Step(4, p0, Key(false, "ArrowDown"), env);
    assert p1 == Stale1(d);
    FragmentOfScene3();
    StaleStep2("#section-sub3", env);
    var p2 := Step(4, p1, HashChange("#section-sub3"), env);
    assert p2 == Stale2(d);
    StaleStep3(d, env);
    StaleStep4(env);
    var p4 := Step(4, Step(4, p2, ResetFires(1), env), Key(false, "ArrowUp"), env);
    assert p4 == Stale4(d);
    StaleStep5(d, env);
    StaleStep6(env);
  }

  /** Loading with the fragment of a later scene opens that scene at once:
      its reset is due with no delay. The fragment of the first scene, one
      beyond the last scene and an unknown one all leave the page at scene
      0, idle. */
  lemma LoadWithFragment(markup: seq<Display>, id: string, env: Env)
    ensures id in IdToIndexTable && 0 < IdToIndexTable[id] < |markup| ==>
      Init(markup, "#" + id, env) ==
        Page(State(Int(IdToIndexTable[id]), true), ApplyPositions(markup, Int(IdToIndexTable[id])), 1, [PendingReset(1, 0)], [])
    ensures !(id in IdToIndexTable && 0 < IdToIndexTable[id] < |markup|) ==>
      Init(markup, "#" + id, env) == Page(Initial, ApplyPositions(markup, Int(0)), 0, [], [])
  {
    var start := Page(Initial, ApplyPositions(markup, Initial.current), 0, [], []);
    HashJumps(|markup|, start, id, env);
    ApplyPositionsIdempotent(start.scenes, markup, Int(0));
    if id in IdToIndexTable && 0 < IdToIndexTable[id] < |markup| {
      ApplyPositionsIdempotent(start.scenes, markup, Int(IdToIndexTable[id]));
    }
  }

  /** Loading without a fragment leaves the page at scene 0, idle. */
  lemma InitWithoutFragment(markup: seq<Display>, env: Env)
    ensures Init(markup, "", env) == Page(Initial, ApplyPositions(markup, Int(0)), 0, [], [])
  {
    assert RemoveFirst("", '#') == "";
    assert HashCommand("") == Nothing;
  }
}

=== FILE: scenes.dfy ===
/**
 The display classes of the scenes, recomputed from the current index by
 `applyPositions` (script.js lines 11-17).
 */
module Scenes {
  import opened JsNumbers

  /** The class state of one scene: neither class, `active`, or `above`. */
  datatype Display = Inactive | Active | Above

  /** The classes scene `i` ends up with: `above` when `i < current`,
      `active` when `i === current`, none otherwise. With NaN as the
      current index both comparisons are false. */
  function PositionOf(i: nat, current: JsInt): Display {
    if Less(Int(i), current) then Above
    else if StrictEquals(Int(i), current) then Active
    else Inactive
  }

  /** `applyPositions`: every scene first loses both classes, then gets the
      ones its position calls for, so the old classes play no part. */
  function ApplyPositions(scenes: seq<Display>, current: JsInt): (r: seq<Display>)
    ensures |r| == |scenes|
    ensures forall i :: 0 <= i < |r| ==> (r[i] == Above <==> current.Int? && i < current.value)
    ensures forall i :: 0 <= i < |r| ==> (r[i] == Active <==> current == Int(i))
    ensures forall i :: 0 <= i < |r| ==> (r[i] == Inactive <==> current.NaN? || current.value < i)
  {
    seq(|scenes|, i requires 0 <= i < |scenes| => PositionOf(i, current))
  }

  /** The number of scenes carrying the `active` class. */
  function ActiveCount(scenes: seq<Display>): nat {
    if |scenes| == 0 then 0
    else (if scenes[0] == Active then 1 else 0) + ActiveCount(scenes[1..])
  }

  /** A sequence whose only `Active` entry sits at position `c` has one
      active scene when `c` is a position of it, and none otherwise. */
  lemma {:induction false} ActiveCountSingle(scenes: seq<Display>, c: int)
    requires forall i :: 0 <= i < |scenes| ==> (scenes[i] == Active <==> i == c)
    ensures ActiveCount(scenes) == if 0 <= c < |scenes| then 1 else 0
    decreases |scenes|
  {
    if |scenes| > 0 {
      var tail := scenes[1..];
      assert forall i :: 0 <= i < |tail| ==> (tail[i] == Active <==> i == c - 1) by {
        forall i | 0 <= i < |tail|
          ensures tail[i] == Active <==> i == c - 1
        {
          assert tail[i] == scenes[i + 1];
        }
      }
      ActiveCountSingle(tail, c - 1);
    }
  }

  /** With the current index among the scenes, exactly one scene is active. */
  lemma ExactlyOneActive(scenes: seq<Display>, c: int)
    requires 0 <= c < |scenes|
    ensures ActiveCount(ApplyPositions(scenes, Int(c))) == 1
  {
    ActiveCountSingle(ApplyPositions(scenes, Int(c)), c);
  }

  /** With NaN as the current index, no scene is active at all. */
  lemma NoneActiveAtNaN(scenes: seq<Display>)
    ensures ActiveCount(ApplyPositions(scenes, NaN)) == 0
  {
    ActiveCountSingle(ApplyPositions(scenes, NaN), -1);
  }

  /** Re-running `applyPositions` with the same index (as the resize handler
      does) changes nothing, and the result never depends on the classes the
      scenes had before, only on how many there are. */
  lemma ApplyPositionsIdempotent(scenes: seq<Display>, other: seq<Display>, current: JsInt)
    requires |other| == |scenes|
    ensures ApplyPositions(ApplyPositions(scenes, current), current) == ApplyPositions(scenes, current)
    ensures ApplyPositions(other, current) == ApplyPositions(scenes, current)
  {
  }
}
